=== FILE: README.md ===
# Ephemeral download cache — a Dafny model

`app.py` is a small web service. It fetches a remote HTTP(S) file once, stores it
in a scratch directory (`temp_downloads`) and serves it back under a short
name. A background thread deletes each tracked file once it has gone 30 minutes
without being fetched or retrieved. This project models the service's core:

- the URL validator (`validate_url`);
- the name pipeline of `download_file`:
  - the last URL segment with its query string cut off;
  - `sanitize_filename`, with its collapsed form for names over 100 characters;
  - the `download_<hash>` fallback for an empty name;
- the collision loop that appends `_<counter>` between pathlib's stem and suffix;
- the size-limited chunk loop;
- the `file_tracker` registry, with the three places that change it:
  - registration at the end of a fetch;
  - the access-time refresh of a retrieval;
  - one pass of `cleanup_old_files`;
- the retrieval route's name check.

Modules, one per concern:

| file | module | models |
|---|---|---|
| `wrappers.dfy` | `Wrappers` | `Option` and `Result` |
| `text.dfy` | `Text` | character classes (`\w` and `\s`), `str.split`, decimal numerals |
| `digest.dfy` | `Digest` | `md5(...).hexdigest()[:8]`, as a stand-in that returns 8 lower-case hex digits |
| `urlcheck.dfy` | `UrlCheck` | `validate_url` |
| `naming.dfy` | `Naming` | `sanitize_filename`, URL candidate, empty-name fallback |
| `collision.dfy` | `Collision` | pathlib `stem`/`suffix` and the collision loop |
| `streaming.dfy` | `Streaming` | the chunk loop with the 500 MiB limit |
| `gate.dfy` | `Gate` | the retrieval route's name check |
| `cache.dfy` | `Cache` | the scratch directory and `file_tracker` as the class `DownloadCache`: fetch, retrieve, sweep |

State and inputs:

- The scratch directory is a map from file name to bytes.
- `file_tracker` is a map from file name to a whole-second time.
  - The source keys it by `str(TEMP_DIR / name)`. That path is injective on the
    names the cache stores, which are never empty and never `.` or `..`.
- Times, the response body (as a sequence of byte chunks) and the
  `Content-Disposition` filename are parameters.
- The set of paths on which `os.unlink` raises is a parameter of the sweep.

Behaviours of the code worth noting:

- A collision splits at pathlib's last dot, so `archive.tar.gz` becomes
  `archive.tar_1.gz`.
- A fetch that exceeds the size limit leaves its partial file on disk, without a
  tracker entry; a later retrieval serves that partial file.
- When `os.unlink` raises during a sweep, the `del` is skipped and the entry stays
  in the tracker.
- A refresh of the access time inserts the entry when it is missing, since it is
  a plain assignment.
- Start-up keeps the files an earlier run left in the scratch directory; they take
  part in the collision loop and can be retrieved.
- The sweep only walks the tracker. The partial file of an oversize fetch and the
  files left by an earlier run are never reclaimed by it, unless a retrieval
  starts tracking them.
- Stem and suffix follow pathlib as of Python 3.13 and earlier: a final dot is
  not a suffix, so `a.` is renamed `a._1`. Later versions may differ.

Names `.` and `..` count as occupied in the collision loop:
- `TEMP_DIR / "."` is the scratch directory itself, so its pathlib name is `temp_downloads`;
- `TEMP_DIR / ".."` is the parent directory.

## Model

| member | source | states |
|---|---|---|
| `Text.Decimal` | app.py:84 | the counter is written as `str(n)`, without leading zeros: a non-empty string of decimal digits whose first digit is `0` only when it is the only digit |
| `Text.DecimalRoundTrip` | app.py:84 | reading the digits back gives the counter, so different counters give different names |
| `Text.Split` | app.py:60 | `str.split` gives at least one piece, and no piece contains the separator |
| `Text.JoinSplit` | app.py:60 | joining the pieces with the separator gives back the string |
| `Text.FirstPiece` | app.py:60 | `split(sep)[0]` is the prefix up to the first separator |
| `Text.LastPiece` | app.py:60 | `split(sep)[-1]` is the suffix after the last separator; it is the whole string exactly when there is no separator |
| `Digest.Md5Prefix` | app.py:48 | the stand-in digest is 8 lower-case hex digits |
| `UrlCheck.ValidUrl` | app.py:35-37 | an accepted URL starts with `http://` or `https://` (any case) and has at least two characters after it |
| `UrlCheck.ValidUrlWhitespace` | app.py:37 | an accepted URL can hold whitespace only right after the first host character, or as a final newline |
| `UrlCheck.AcceptedExample` | app.py:37 | `https://example.com/a.gz` is accepted |
| `UrlCheck.SchemeIgnoresCase` | app.py:37 | `HTTP://ab` is accepted, and so is the scheme spelled with U+017F for `s` |
| `UrlCheck.LaxAcceptance` | app.py:37 | `http://a b` and `http://ab` followed by a newline are accepted |
| `UrlCheck.RefusedExamples` | app.py:37 | `ftp://ab`, `http:///x`, `http://.x` and `http://a` are refused |
| `Naming.ReplaceUnsafe` | app.py:42 | one character out for each character in: safe characters kept, the others replaced by `_` |
| `Naming.ReplaceUnsafeOfSafe` | app.py:42 | the replacement leaves a safe name unchanged |
| `Naming.Sanitize` | app.py:39-51 | the result is safe and at most 100 characters; up to 100 characters it is exactly the replaced input, above 100 it is 70 characters whose first 50 are the replaced input's |
| `Naming.CollapsedLayout` | app.py:45-49 | a collapsed name is the first 50 sanitized characters, `_`, the 8-digit digest of the sanitized name, `_`, and its last 10 characters |
| `Naming.SanitizeFixedPoint` | app.py:39-51 | sanitizing leaves a name unchanged exactly when it is safe and at most 100 characters |
| `Naming.SanitizeIdempotent` | app.py:39-51 | sanitizing twice is sanitizing once |
| `Naming.SanitizeEmpty` | app.py:73-74 | only the empty name sanitizes to the empty name |
| `Naming.UrlCandidate` | app.py:60 | the candidate has no `/` or `?`; it starts right after the last `/` (or at the start) and stops at the next `?` (or at the end) |
| `Naming.PlainPathCandidate` | app.py:60 | `h/a.gz` gives `a.gz` |
| `Naming.QueryCutCandidate` | app.py:60 | `h/f?t` gives `f` |
| `Naming.TrailingSlashCandidate` | app.py:60 | `h/` gives the empty candidate |
| `Naming.RawName` | app.py:59-70 | the raw name is the header's filename when the response has one, and otherwise the URL candidate, which holds no `/` or `?` |
| `Naming.FileNameFor` | app.py:59-75 | the name is never empty, is safe and at most 100 characters; it is the sanitized raw name, or `download_` plus the URL digest when that is empty |
| `Collision.Occupied` | app.py:81 | a name is taken when a stored file has it, and `.` and `..` are always taken since they denote directories |
| `Collision.PathName` | app.py:77 | the `name` of the candidate path: the name itself, except that `.` gives the scratch directory's name `temp_downloads`; never shorter than the name and never `.` |
| `Collision.LastDot` | app.py:82-83 | the index of the name's last dot, or -1 when there is none |
| `Collision.Suffix` | app.py:83 | the suffix is empty or starts with a dot, has at least one character after it and is shorter than the name |
| `Collision.SuffixHasOneDot` | app.py:83 | a suffix holds no dot besides its first character |
| `Collision.Stem` | app.py:82 | the stem of a non-empty name is non-empty and no longer than the name |
| `Collision.StemSuffix` | app.py:82-83 | stem and suffix put together give back the name |
| `Collision.NextName` | app.py:82-84 | a renamed attempt is longer than the one before |
| `Collision.SuffixSurvives` | app.py:82-84 | unless the name ends in a dot, the renamed name has the same pathlib suffix, and its stem is the old stem followed by `_<counter>` |
| `Collision.TrailingDotRename` | app.py:82-84 | when the name ends in a dot the suffix is empty, so renaming appends `_<counter>` after that dot |
| `Collision.RenameTrailingDot` | app.py:82-84 | `a.` becomes `a._1` |
| `Collision.NextNameSafe` | app.py:84 | renaming a safe name gives a safe name |
| `Collision.ResolveCollision` | app.py:79-85 | the loop ends on a free name; every earlier attempt was occupied; each attempt is the previous one renamed with the next counter; a safe name stays safe and never gets shorter |
| `Collision.TrailAttempts` | app.py:80-85 | the `k`-th attempt is `k` renamings of the original name with counters 1 to `k` |
| `Collision.TrailNames` | app.py:80-85 | every attempt is at least as long as the original, and safe when the original is |
| `Collision.RenameKeepsExtension` | app.py:82-84 | `a.txt` becomes `a_1.txt` |
| `Collision.RenameSplitsAtLastDot` | app.py:82-84 | `archive.tar.gz` becomes `archive.tar_1.gz` |
| `Collision.RenameCompounds` | app.py:80-85 | a second collision gives `a_1_2.txt` |
| `Collision.RenameDotfile` | app.py:82-84 | `.bashrc` has no suffix and becomes `.bashrc_1` |
| `Collision.RenameDirectoryNames` | app.py:82-84 | `..` becomes `.._1`, and `.` becomes `temp_downloads_1` |
| `Streaming.ConcatAppend` | app.py:93-94 | writing two runs of chunks one after the other writes their concatenation |
| `Streaming.StreamToFile` | app.py:87-94 | the bytes written are the chunks before the first one that would pass 500 MiB; the limit is exceeded exactly when the whole body is larger; otherwise the whole body is written |
| `Gate.Admits` | app.py:193 | a name passes the route's check exactly when no character is `/` or `\` and no two neighbouring characters are both `.` |
| `Gate.HasDotDot` | app.py:193 | true exactly when `..` occurs in the name |
| `Gate.RefusedNames` | app.py:193-194 | `../../etc/passwd`, `..`, `a/b`, `a\b` and `a..b` are refused |
| `Cache.Expired` | app.py:110 | an entry is expired exactly when its time is earlier than `now` minus 1800 s (`FILE_LIFETIME`); an expired entry always lies in the past |
| `Cache.SweptTracker` | app.py:106-119 | a sweep keeps live entries unchanged; it drops an expired entry unless the file exists and its unlink raises; it adds and changes nothing |
| `Cache.SweptFiles` | app.py:113-119 | a sweep deletes a file exactly when it is tracked, expired and its unlink does not raise |
| `Cache.SweepKeepsTrackedFiles` | app.py:113-117 | after a sweep every tracked entry still has its file |
| `Cache.SweepIdempotent` | app.py:106-119 | a second sweep at the same time changes neither the tracker nor the files |
| `Cache.LifetimeBoundary` | app.py:22 | an entry exactly 1800 s old survives; one 1801 s old is dropped with its file unless the unlink raises |
| `Cache.DeletionsMatchSweep` | app.py:113-119 | handling each expired path once gives the sweep's result |
| `Cache.DownloadCache.constructor` | app.py:26-29 | the cache starts with the files left in the scratch directory (none empty, `.` or `..`) and an empty tracker |
| `Cache.DownloadCache.Put` | app.py:97-98 | only that entry's time is set; the files are unchanged |
| `Cache.DownloadCache.Fetch` | app.py:53-100 | a fresh safe name is chosen by the collision loop and a file is created there with the bytes that fit. The fetch succeeds exactly when the body fits in 500 MiB; then the file is the whole body and the name is tracked at `now`. Otherwise it fails with `SizeExceeded`, the tracker is unchanged, and the file holds exactly the chunks before the first one that would pass the limit |
| `Cache.DownloadCache.Retrieve` | app.py:188-202 | a name with `..`, `/` or `\` is refused before any lookup; a missing file gives `NotFound`; neither changes anything. Otherwise it returns the stored bytes and only that entry's time becomes `now` |
| `Cache.DownloadCache.ExpiredPaths` | app.py:108-111 | the scan lists exactly the tracked paths with `now - time > 1800`, each once |
| `Cache.DownloadCache.Sweep` | app.py:102-119 | the new tracker and directory are `SweptTracker` and `SweptFiles` of the old ones, and every tracked entry keeps its file |
| `Cache.DownloadCache.FetchThenRetrieve` | app.py:188-202 | retrieving the name a fetch returned gives back the whole body exactly when the name has no `..`; otherwise the result is `InvalidName`; a failed fetch returns no name, so no retrieval is made |
| `Cache.SafeNameAdmission` | app.py:193 | for a sanitized name, the gate only checks for `..` |
| `Cache.DotDotNameRefused` | app.py:60 | `h/a..b` is stored as `a..b`, which the retrieval gate always refuses |

## Left out

- Networking: the `httpx` client, the 30-second timeout and `raise_for_status`. The response body is an input sequence of chunks, and upstream failures are not modelled.
- The `Content-Disposition` regular expressions and `.strip()`. The filename they extract is an optional input, taken as already extracted.
- The lock, the daemon thread, `time.sleep`, `CLEANUP_INTERVAL` and `atexit`. The model is sequential, one sweep pass at a time. Concurrent fetches that pick the same free name are not modelled.
- `clean_temp_folder`: it is process-exit directory I/O.
- `generate_link` and `index`: JSON and status-code shaping, `send_file` and the HTML template. `Fetch` models `download_file` only: the route's `.strip()`, empty-URL check and `validate_url` gate are not composed with it. `Retrieve` models the retrieval route up to the response.
- `time.time()` returns a float. Times here are whole seconds.
- Digest.Md5Prefix: MD5 itself is not modelled. The stand-in only keeps the promise of 8 lower-case hex digits of a function of the input.
- Text.IsWordChar: it is ASCII `[A-Za-z0-9_]`. Python's `\w` also accepts non-ASCII letters and digits, which the model replaces with `_`.
- `os.unlink` failures are a set of paths given to the sweep. Files that disappear from outside the program are not modelled: the cache invariant keeps every tracked path backed by a file.
- Retrieval of a name that is a directory in the scratch directory is not modelled separately. Only `.` can pass the name check, and it is never a stored file, so the result is `NotFound`.

=== FILE: cache.dfy ===
/** The download cache of app.py: the scratch directory, the `file_tracker` map from
    stored file to last access time, and the three operations that change them: a
    fetch (`download_file`), a retrieval (`download_file_route` without the HTTP
    response) and one sweep of `cleanup_old_files`. Times are whole seconds supplied
    by the caller. */
module Cache {
  import opened Wrappers
  import opened Naming
  import opened Collision
  import opened Streaming
  import opened Gate
  import opened Text

  /** Seconds a file may go without a retrieval before a sweep reclaims it. */
  const FILE_LIFETIME: int := 1800

  datatype FetchError = SizeExceeded

  datatype RetrieveError = InvalidName | NotFound

  /** The sweep's test `now - timestamp > FILE_LIFETIME`. */
  predicate Expired(stamp: int, now: int): (expired: bool)
    ensures expired ==> stamp < now
    ensures expired <==> now - FILE_LIFETIME > stamp
  {
    now - stamp > FILE_LIFETIME
  }

  /** Tracked paths a sweep at `now` deletes from the tracker: the expired ones whose
      file is already gone or is unlinked. `failing` holds the paths on which
      `os.unlink` raises. */
  function Dropped(tracker: map<string, int>, onDisk: set<string>, failing: set<string>, now: int): set<string>
  {
    set p | p in tracker && Expired(tracker[p], now) && (p !in onDisk || p !in failing)
  }

  /** Tracked paths whose file a sweep at `now` unlinks. */
  function Unlinked(tracker: map<string, int>, onDisk: set<string>, failing: set<string>, now: int): set<string>
  {
    set p | p in tracker && Expired(tracker[p], now) && p in onDisk && p !in failing
  }

  /** The tracker after one sweep. */
  function SweptTracker(tracker: map<string, int>, onDisk: set<string>, failing: set<string>, now: int): (t: map<string, int>)
    ensures forall p :: p in t ==> p in tracker && t[p] == tracker[p]
    ensures forall p :: p in tracker && !Expired(tracker[p], now) ==> p in t
    ensures forall p :: p in tracker && Expired(tracker[p], now) ==> (p in t <==> p in onDisk && p in failing)
  {
    tracker - Dropped(tracker, onDisk, failing, now)
  }

  /** The scratch directory after one sweep. */
  function SweptFiles(tracker: map<string, int>, files: map<string, seq<byte>>, failing: set<string>, now: int): (f: map<string, seq<byte>>)
    ensures forall p :: p in f ==> p in files && f[p] == files[p]
    ensures forall p :: p in files ==> (p !in f <==> p in tracker && Expired(tracker[p], now) && p !in failing)
  {
    files - Unlinked(tracker, files.Keys, failing, now)
  }

  /** A sweep keeps every tracked path backed by a file: it never unlinks a file whose
      entry it keeps. */
  lemma SweepKeepsTrackedFiles(tracker: map<string, int>, files: map<string, seq<byte>>, failing: set<string>, now: int)
    requires tracker.Keys <= files.Keys
    ensures SweptTracker(tracker, files.Keys, failing, now).Keys <= SweptFiles(tracker, files, failing, now).Keys
  {
  }

  /** A second sweep at the same instant, with the same failing unlinks, changes
      nothing: the entries the first one kept are live or have an undeletable file. */
  lemma SweepIdempotent(tracker: map<string, int>, files: map<string, seq<byte>>, failing: set<string>, now: int)
    ensures var t := SweptTracker(tracker, files.Keys, failing, now);
      var f := SweptFiles(tracker, files, failing, now);
      SweptTracker(t, f.Keys, failing, now) == t && SweptFiles(t, f, failing, now) == f
  {
    var t := SweptTracker(tracker, files.Keys, failing, now);
    var f := SweptFiles(tracker, files, failing, now);
    assert Dropped(t, f.Keys, failing, now) == {};
    assert Unlinked(t, f.Keys, failing, now) == {};
  }

  /** The comparison is strict: an entry exactly `FILE_LIFETIME` seconds old survives,
      one a second older is dropped unless its unlink fails. */
  lemma LifetimeBoundary(tracker: map<string, int>, files: map<string, seq<byte>>, failing: set<string>, p: string, now: int)
    requires p in tracker
    ensures tracker[p] == now - FILE_LIFETIME ==> p in SweptTracker(tracker, files.Keys, failing, now)
    ensures tracker[p] == now - FILE_LIFETIME - 1 && p !in failing ==>
      p !in SweptTracker(tracker, files.Keys, failing, now) && p !in SweptFiles(tracker, files, failing, now)
  {
  }

  /** Handling every expired path, in any order, gives the sweep's result. */
  lemma DeletionsMatchSweep(tracker: map<string, int>, files: map<string, seq<byte>>, toDelete: seq<string>, failing: set<string>, now: int)
    requires forall p :: p in toDelete <==> p in tracker && Expired(tracker[p], now)
    ensures tracker - (set p | p in toDelete && (p !in files || p !in failing)) == SweptTracker(tracker, files.Keys, failing, now)
    ensures files - (set p | p in toDelete && p in files && p !in failing) == SweptFiles(tracker, files, failing, now)
  {
    assert (set p | p in toDelete && (p !in files || p !in failing)) == Dropped(tracker, files.Keys, failing, now);
    assert (set p | p in toDelete && p in files && p !in failing) == Unlinked(tracker, files.Keys, failing, now);
  }

  class DownloadCache {
    /** The scratch directory: the name and content of each stored file. */
    var files: map<string, seq<byte>>
    /** `file_tracker`: the last access time of each tracked file. */
    var tracker: map<string, int>

    /** Every tracked path has its file, and no stored name is empty or names a
        directory. */
    ghost predicate Valid()
      reads this
    {
      && tracker.Keys <= files.Keys
      && forall n :: n in files ==> n != [] && !IsDirectoryName(n)
    }

    /** The service at start-up: `mkdir(exist_ok=True)` keeps whatever files an
        earlier run left in the scratch directory, and the tracker starts empty. */
    constructor (leftover: map<string, seq<byte>>)
      requires forall n :: n in leftover ==> n != [] && !IsDirectoryName(n)
      ensures Valid()
      ensures files == leftover && tracker == map[]
    {
      files := leftover;
      tracker := map[];
    }

    /** `file_tracker[path] = now`, as done when a fetch completes and when a file is
        retrieved: it inserts the entry or overwrites its time. */
    method Put(name: string, now: int)
      requires Valid()
      modifies this
      ensures files == old(files)
      ensures tracker == old(tracker)[name := now]
      ensures Valid() <==> name in files
    {
      tracker := tracker[name := now];
    }

    /** `download_file` after the response has arrived. `disposition` is the filename
        taken from a `Content-Disposition` header, if any; `chunks` is the body. The
        file is created under a fresh name and receives the chunks before the first
        one that would take it past `MAX_FILE_SIZE`; that partial file stays when the
        fetch fails, and the file is tracked only when the whole body fitted. */
    method Fetch(url: string, disposition: Option<string>, chunks: seq<seq<byte>>, now: int)
      returns (r: Result<string, FetchError>, ghost stored: string, ghost trail: seq<string>, ghost count: nat)
      requires Valid()
      modifies this
      ensures Valid()
      ensures IsTrail(FileNameFor(url, disposition), trail) && stored == trail[|trail| - 1]
      ensures forall k :: 0 <= k < |trail| - 1 ==> Occupied(old(files).Keys, trail[k])
      ensures stored !in old(files) && IsSafeName(stored)
      ensures stored in files && files == old(files)[stored := files[stored]]
      ensures files[stored] <= Concat(chunks) && |files[stored]| <= MAX_FILE_SIZE
      ensures count <= |chunks| && files[stored] == Concat(chunks[..count])
      ensures r.Err? ==> count < |chunks| && |files[stored]| + |chunks[count]| > MAX_FILE_SIZE
      ensures r.Ok? <==> |Concat(chunks)| <= MAX_FILE_SIZE
      ensures r.Ok? ==> r.value == stored && files[stored] == Concat(chunks)
      ensures r.Ok? ==> tracker == old(tracker)[stored := now]
      ensures r.Err? ==> r.error == SizeExceeded && tracker == old(tracker)
    {
      var name := FileNameFor(url, disposition);
      var chosen;
      chosen, trail := ResolveCollision(files.Keys, name);
      stored := chosen;
      var written, exceeded;
      written, exceeded, count := StreamToFile(chunks);
      files := files[chosen := written];
      if exceeded {
        r := Err(SizeExceeded);
        return;
      }
      Put(chosen, now);
      r := Ok(chosen);
    }

    /** `download_file_route` without the HTTP response: the name check comes first,
        then the existence check, then the tracker's time is refreshed. */
    method Retrieve(name: string, now: int) returns (r: Result<seq<byte>, RetrieveError>)
      requires Valid()
      modifies this
      ensures Valid()
      ensures files == old(files)
      ensures !Admits(name) ==> r == Err(InvalidName) && tracker == old(tracker)
      ensures Admits(name) && name !in old(files) ==> r == Err(NotFound) && tracker == old(tracker)
      ensures Admits(name) && name in old(files) ==>
        r == Ok(old(files)[name]) && tracker == old(tracker)[name := now]
    {
      if HasDotDot(name) || '/' in name || '\\' in name {
        r := Err(InvalidName);
        return;
      }
      if name !in files {
        r := Err(NotFound);
        return;
      }
      Put(name, now);
      r := Ok(files[name]);
    }

    /** The first loop of a `cleanup_old_files` pass: the tracked paths that have
        expired at `now`, each listed once. */
    method ExpiredPaths(now: int) returns (toDelete: seq<string>)
      ensures forall p :: p in toDelete <==> p in tracker && Expired(tracker[p], now)
      ensures forall i, j :: 0 <= i < j < |toDelete| ==> toDelete[i] != toDelete[j]
    {
      toDelete := [];
      var pending := tracker.Keys;
      while pending != {}
        invariant pending <= tracker.Keys
        invariant forall p :: p in toDelete <==> p in tracker && p !in pending && Expired(tracker[p], now)
        invariant forall i, j :: 0 <= i < j < |toDelete| ==> toDelete[i] != toDelete[j]
        decreases pending
      {
        var p :| p in pending;
        if now - tracker[p] > FILE_LIFETIME {
          toDelete := toDelete + [p];
        }
        pending := pending - {p};
      }
    }

    /** One pass of `cleanup_old_files` at time `now`: collect the expired paths, then
        for each, unlink its file if there is one and delete its tracker entry. When
        `os.unlink` raises (the paths in `failing`), the error is only logged and the
        entry stays in the tracker. */
    method Sweep(now: int, failing: set<string>)
      requires Valid()
      modifies this
      ensures Valid()
      ensures tracker == SweptTracker(old(tracker), old(files).Keys, failing, now)
      ensures files == SweptFiles(old(tracker), old(files), failing, now)
    {
      var toDelete := ExpiredPaths(now);
      ghost var tracker0, files0 := tracker, files;
      var i := 0;
      while i < |toDelete|
        invariant 0 <= i <= |toDelete|
        invariant tracker == tracker0 - (set p | p in toDelete[..i] && (p !in files0 || p !in failing))
        invariant files == files0 - (set p | p in toDelete[..i] && p in files0 && p !in failing)
      {
        var p := toDelete[i];
        assert toDelete[..i + 1] == toDelete[..i] + [p];
        var unlinkRaised := p in files && p in failing;
        if !unlinkRaised {
          if p in files {
            files := files - {p};
          }
          tracker := tracker - {p};
        }
        i := i + 1;
      }
      assert toDelete[..i] == toDelete;
      DeletionsMatchSweep(tracker0, files0, toDelete, failing, now);
      SweepKeepsTrackedFiles(tracker0, files0, failing, now);
    }

    /** A fetch followed by a retrieval of the returned name gives back the response
        body, unless that name contains `..`, which the gate refuses. A failed fetch
        hands no name back, so then no retrieval is made (`retrieved` is `None`). */
    method FetchThenRetrieve(url: string, disposition: Option<string>, chunks: seq<seq<byte>>, fetchedAt: int, retrievedAt: int)
      returns (fetched: Result<string, FetchError>, retrieved: Option<Result<seq<byte>, RetrieveError>>)
      requires Valid()
      modifies this
      ensures Valid()
      ensures fetched.Ok? <==> |Concat(chunks)| <= MAX_FILE_SIZE
      ensures fetched.Ok? <==> retrieved.Some?
      ensures fetched.Ok? ==> (retrieved == Some(Ok(Concat(chunks))) <==> !HasDotDot(fetched.value))
      ensures fetched.Ok? && HasDotDot(fetched.value) ==> retrieved == Some(Err(InvalidName))
    {
      ghost var stored, trail, count;
      fetched, stored, trail, count := Fetch(url, disposition, chunks, fetchedAt);
      if fetched.Ok? {
        SafeNameAdmission(stored);
        var r := Retrieve(fetched.value, retrievedAt);
        retrieved := Some(r);
      } else {
        retrieved := None;
      }
    }
  }

  /** For a sanitized name the gate only looks for `..`. */
  lemma SafeNameAdmission(name: string)
    requires IsSafeName(name)
    ensures Admits(name) <==> !HasDotDot(name)
  {
    assert '/' !in name && '\\' !in name by {
      forall i | 0 <= i < |name|
        ensures name[i] != '/' && name[i] != '\\'
      {
        assert IsSafeChar(name[i]);
      }
    }
  }

  /** A URL whose last segment contains `..` yields a stored name that the retrieval
      gate always refuses: `h/a..b` is stored as `a..b`. */
  lemma DotDotNameRefused()
    ensures FileNameFor("h/a..b", None) == "a..b"
    ensures !Admits("a..b")
  {
    DotDotCandidate();
    assert IsSafeName("a..b");
    SanitizeFixedPoint("a..b");
    assert "a..b"[1] == '.' && "a..b"[2] == '.';
  }

  /** The URL candidate of `h/a..b`. */
  lemma DotDotCandidate()
    ensures UrlCandidate("h/a..b") == "a..b"
  {
    SplitWithout("a..b", '/');
    SplitWithout("a..b", '?');
    assert "/a..b"[1..] == "a..b";
    assert "h/a..b"[1..] == "/a..b";
    assert Split("/a..b", '/') == ["", "a..b"];
    assert ['h'] + "" == "h";
    assert Split("h/a..b", '/') == ["h", "a..b"];
  }
}

=== FILE: collision.dfy ===
/** The loop of `download_file` that makes the stored filename unique: while a file of
    that name exists in the scratch directory, `_<counter>` is put between pathlib's
    `stem` and `suffix` of the current name. */
module Collision {
  import opened Text
  import opened Naming

  /** The name of the scratch directory itself. */
  const SCRATCH_DIR_NAME: string := "temp_downloads"

  /** Names that denote directories rather than files inside the scratch directory:
      the directory itself and its parent. */
  predicate IsDirectoryName(name: string) {
    name == "." || name == ".."
  }

  /** `(scratch / name).exists()` when `existing` holds the names of the stored files. */
  predicate Occupied(existing: set<string>, name: string): (taken: bool)
    ensures name in existing ==> taken
    ensures IsDirectoryName(name) ==> taken
  {
    name in existing || IsDirectoryName(name)
  }

  /** The `name` attribute of `scratch / name`: pathlib drops a `.` component, so that
      path is the scratch directory, whose name is `temp_downloads`. */
  function PathName(name: string): (p: string)
    ensures |p| >= |name|
    ensures p != "."
  {
    if name == "." then SCRATCH_DIR_NAME else name
  }

  /** `name.rfind('.')`: the index of the last dot, or -1. */
  function LastDot(name: string): (i: int)
    ensures -1 <= i < |name|
    ensures i >= 0 ==> name[i] == '.'
    ensures forall j :: i < j < |name| ==> name[j] != '.'
  {
    if name == [] then -1
    else if name[|name| - 1] == '.' then |name| - 1
    else LastDot(name[..|name| - 1])
  }

  /** pathlib's `suffix` as of Python 3.13 and earlier: from the last dot on, when
      that dot is neither the first nor the last character; otherwise empty. */
  function Suffix(name: string): (s: string)
    ensures s == [] || (|s| >= 2 && s[0] == '.' && |s| < |name|)
  {
    var i := LastDot(name);
    if 0 < i < |name| - 1 then name[i..] else ""
  }

  /** pathlib's `stem`: the name without its suffix; it is empty only for the
      empty name. */
  function Stem(name: string): (t: string)
    ensures name != [] ==> 0 < |t| <= |name|
  {
    var i := LastDot(name);
    if 0 < i < |name| - 1 then name[..i] else name
  }

  /** Stem and suffix together give back the name. */
  lemma StemSuffix(name: string)
    ensures Stem(name) + Suffix(name) == name
  {
  }

  /** One step of the loop: `f"{stem}_{counter}{suffix}"` of the current path. */
  function NextName(name: string, counter: nat): (next: string)
    ensures |next| > |name|
  {
    var p := PathName(name);
    StemSuffix(p);
    Stem(p) + ("_" + Decimal(counter)) + Suffix(p)
  }

  /** `LastDot` is the one index that is a dot with no dot after it, or -1 when
      there is no dot. */
  lemma LastDotIs(name: string, i: int)
    requires -1 <= i < |name|
    requires i >= 0 ==> name[i] == '.'
    requires forall j :: i < j < |name| ==> name[j] != '.'
    ensures LastDot(name) == i
  {
  }

  /** Appending text without a dot leaves the last dot where it was. */
  lemma LastDotPastDotless(a: string, b: string)
    requires forall k :: 0 <= k < |b| ==> b[k] != '.'
    ensures LastDot(a + b) == LastDot(a)
  {
    var i := LastDot(a);
    forall k | i < k < |a + b|
      ensures (a + b)[k] != '.'
    {
      if k >= |a| {
        assert (a + b)[k] == b[k - |a|];
      }
    }
    LastDotIs(a + b, i);
  }

  /** Inserting dotless text before a name's suffix keeps that suffix and lengthens
      the stem by the inserted text, unless the name ends in a dot. */
  lemma InsertBeforeSuffix(p: string, mid: string)
    requires p == [] || p[|p| - 1] != '.'
    requires forall k :: 0 <= k < |mid| ==> mid[k] != '.'
    ensures Suffix(Stem(p) + mid + Suffix(p)) == Suffix(p)
    ensures Stem(Stem(p) + mid + Suffix(p)) == Stem(p) + mid
  {
    var i := LastDot(p);
    if 0 < i < |p| - 1 {
      var a := p[..i] + mid;
      var x := p[i..];
      assert Stem(p) + mid + Suffix(p) == (a + ['.']) + x[1..];
      LastDotIs(a + ['.'], |a|);
      assert forall k :: 0 <= k < |x[1..]| ==> x[1..][k] == p[i + 1 + k];
      LastDotPastDotless(a + ['.'], x[1..]);
      assert (a + ['.']) + x[1..] == a + x;
    } else {
      LastDotPastDotless(p, mid);
    }
  }

  /** A suffix holds exactly one dot, its first character. */
  lemma SuffixHasOneDot(name: string)
    ensures forall k :: 1 <= k < |Suffix(name)| ==> Suffix(name)[k] != '.'
  {
  }

  /** When the name ends in a dot pathlib sees no suffix, so a renaming step appends
      `_<counter>` after that dot. */
  lemma TrailingDotRename(name: string, counter: nat)
    requires var p := PathName(name); p != [] && p[|p| - 1] == '.'
    ensures NextName(name, counter) == PathName(name) + "_" + Decimal(counter)
  {
    var p := PathName(name);
    LastDotIs(p, |p| - 1);
  }

  /** `a.` is renamed `a._1`. */
  lemma RenameTrailingDot()
    ensures NextName("a.", 1) == "a._1"
  {
    TrailingDotRename("a.", 1);
  }

  /** Unless the name ends in a dot, a renaming step keeps pathlib's suffix and puts
      `_<counter>` at the end of the stem. */
  lemma SuffixSurvives(name: string, counter: nat)
    requires var p := PathName(name); p == [] || p[|p| - 1] != '.'
    ensures Suffix(NextName(name, counter)) == Suffix(PathName(name))
    ensures Stem(NextName(name, counter)) == Stem(PathName(name)) + "_" + Decimal(counter)
  {
    var mid := "_" + Decimal(counter);
    forall k | 0 <= k < |mid|
      ensures mid[k] != '.'
    {
      if k > 0 {
        assert mid[k] == Decimal(counter)[k - 1];
      }
    }
    InsertBeforeSuffix(PathName(name), mid);
  }

  /** A renaming step keeps a safe name safe. */
  lemma NextNameSafe(name: string, counter: nat)
    requires IsSafeName(name)
    ensures IsSafeName(NextName(name, counter))
  {
    var p := PathName(name);
    PathNameSafe(name);
    SafeSlices(p);
    SafeJoin("_", Decimal(counter));
    SafeJoin(Stem(p), "_" + Decimal(counter));
    SafeJoin(Stem(p) + ("_" + Decimal(counter)), Suffix(p));
  }

  lemma PathNameSafe(name: string)
    requires IsSafeName(name)
    ensures IsSafeName(PathName(name))
  {
    if name == "." {
      assert forall i :: 0 <= i < |SCRATCH_DIR_NAME| ==> IsSafeChar(SCRATCH_DIR_NAME[i]);
    }
  }

  lemma SafeSlices(p: string)
    requires IsSafeName(p)
    ensures IsSafeName(Stem(p)) && IsSafeName(Suffix(p))
  {
    var i := LastDot(p);
    if 0 < i < |p| - 1 {
      assert forall k :: 0 <= k < |p| - i ==> Suffix(p)[k] == p[i + k];
    }
  }

  lemma SafeJoin(a: string, b: string)
    requires IsSafeName(a) && IsSafeName(b)
    ensures IsSafeName(a + b)
  {
    assert forall k :: |a| <= k < |a + b| ==> (a + b)[k] == b[k - |a|];
  }

  /** The name the loop holds after `k` steps (counters 1 to `k`). */
  function Attempt(name: string, k: nat): string
  {
    if k == 0 then name else NextName(Attempt(name, k - 1), k)
  }

  /** An upper bound on the length of every name in a finite set. */
  ghost function MaxLength(names: set<string>): (m: nat)
    ensures forall n :: n in names ==> |n| <= m
  {
    if names == {} then 0
    else
      var n :| n in names;
      var rest := MaxLength(names - {n});
      if |n| > rest then |n| else rest
  }

  /** `trail` lists the names the loop holds, one per step, starting from `name`. */
  ghost predicate IsTrail(name: string, trail: seq<string>) {
    && |trail| >= 1 && trail[0] == name
    && forall k :: 0 <= k < |trail| - 1 ==> trail[k + 1] == NextName(trail[k], k + 1)
  }

  /** The `k`-th name on a trail is the loop's `k`-th attempt. */
  lemma {:induction false} TrailAttempts(name: string, trail: seq<string>, k: nat)
    requires IsTrail(name, trail) && k < |trail|
    ensures trail[k] == Attempt(name, k)
  {
    if k > 0 {
      TrailAttempts(name, trail, k - 1);
    }
  }

  /** A trail grows by one renaming step. */
  lemma TrailExtend(name: string, trail: seq<string>, next: string)
    requires IsTrail(name, trail)
    requires next == NextName(trail[|trail| - 1], |trail|)
    ensures IsTrail(name, trail + [next])
  {
    var t := trail + [next];
    forall k | 0 <= k < |t| - 1
      ensures t[k + 1] == NextName(t[k], k + 1)
    {
      if k < |trail| - 1 {
        assert t[k] == trail[k] && t[k + 1] == trail[k + 1];
      }
    }
  }

  /** Every name on a trail from a safe name is safe, and none is shorter than the
      first. */
  lemma {:induction false} TrailNames(name: string, trail: seq<string>, k: nat)
    requires IsTrail(name, trail) && k < |trail|
    ensures |trail[k]| >= |name|
    ensures IsSafeName(name) ==> IsSafeName(trail[k])
  {
    if k > 0 {
      TrailNames(name, trail, k - 1);
      if IsSafeName(name) {
        NextNameSafe(trail[k - 1], k);
      }
    }
  }

  /** An occupied name is no longer than the longest stored name or `..`. */
  lemma OccupiedBounded(existing: set<string>, n: string)
    requires Occupied(existing, n)
    ensures |n| <= MaxLength(existing) + 2
  {
  }

  /** The collision loop. It ends because each step makes the name longer and the set
      of existing names is finite; it returns the first of the successive attempts that
      is free. */
  method ResolveCollision(existing: set<string>, name: string) returns (chosen: string, ghost trail: seq<string>)
    ensures !Occupied(existing, chosen)
    ensures IsTrail(name, trail) && chosen == trail[|trail| - 1]
    ensures forall k :: 0 <= k < |trail| - 1 ==> Occupied(existing, trail[k])
    ensures |chosen| >= |name|
    ensures IsSafeName(name) ==> IsSafeName(chosen)
  {
    chosen := name;
    var counter := 1;
    trail := [name];
    while Occupied(existing, chosen)
      invariant counter == |trail| && IsTrail(name, trail)
      invariant chosen == trail[|trail| - 1]
      invariant forall k :: 0 <= k < |trail| - 1 ==> Occupied(existing, trail[k])
      decreases MaxLength(existing) + 2 - |chosen|
    {
      OccupiedBounded(existing, chosen);
      var next := NextName(chosen, counter);
      TrailExtend(name, trail, next);
      chosen := next;
      trail := trail + [chosen];
      counter := counter + 1;
    }
    TrailNames(name, trail, |trail| - 1);
  }

  /** `a.txt` is renamed `a_1.txt`: the counter goes between stem and suffix. */
  lemma RenameKeepsExtension()
    ensures NextName("a.txt", 1) == "a_1.txt"
  {
    assert "a.txt"[..4] == "a.tx" && "a.tx"[..3] == "a.t" && "a.t"[..2] == "a.";
    assert LastDot("a.txt") == 1;
    assert Stem("a.txt") == "a" && Suffix("a.txt") == ".txt";
  }

  /** `archive.tar.gz` is renamed `archive.tar_1.gz`: pathlib's suffix is only the
      last extension. */
  lemma RenameSplitsAtLastDot()
    ensures NextName("archive.tar.gz", 1) == "archive.tar_1.gz"
  {
    assert "archive.tar.gz"[..13] == "archive.tar.g";
    assert "archive.tar.g"[..12] == "archive.tar.";
    assert LastDot("archive.tar.gz") == 11;
    assert Stem("archive.tar.gz") == "archive.tar" && Suffix("archive.tar.gz") == ".gz";
  }

  /** A second collision renames the already renamed path: `a_1.txt` becomes
      `a_1_2.txt`, not `a_2.txt`. */
  lemma RenameCompounds()
    ensures NextName(NextName("a.txt", 1), 2) == "a_1_2.txt"
  {
    RenameKeepsExtension();
    LastDotIs("a_1.txt", 3);
    assert Stem("a_1.txt") == "a_1" && Suffix("a_1.txt") == ".txt";
  }

  /** A leading dot is not a suffix: `.bashrc` becomes `.bashrc_1`. */
  lemma RenameDotfile()
    ensures NextName(".bashrc", 1) == ".bashrc_1"
  {
    assert forall j :: 1 <= j < |".bashrc"| ==> ".bashrc"[j] != '.';
    assert ".bashrc"[0] == '.';
    assert LastDot(".bashrc") == 0;
  }

  /** The two directory names: `..` becomes `.._1`, and `.` (the scratch directory
      itself) becomes `temp_downloads_1`. */
  lemma RenameDirectoryNames()
    ensures NextName("..", 1) == ".._1"
    ensures NextName(".", 1) == "temp_downloads_1"
  {
    assert ".."[..1] == ".";
    assert LastDot("..") == 1;
    assert forall j :: 0 <= j < |SCRATCH_DIR_NAME| ==> SCRATCH_DIR_NAME[j] != '.';
    assert LastDot(SCRATCH_DIR_NAME) == -1;
  }
}

=== FILE: digest.dfy ===
/** The 8-character digests the service takes from `hashlib.md5(...).hexdigest()[:8]`.
    MD5 itself is not modelled: `Md5Prefix` is a stand-in with the same shape
    (eight lower-case hexadecimal digits), and nothing proved elsewhere depends on
    which digits it returns. */
module Digest {

  predicate IsLowerHex(c: char) {
    '0' <= c <= '9' || 'a' <= c <= 'f'
  }

  function HexDigit(d: nat): (c: char)
    requires d < 16
    ensures IsLowerHex(c)
  {
    if d < 10 then ('0' as int + d) as char else ('a' as int + d - 10) as char
  }

  /** The last `width` hexadecimal digits of `n`, zero-padded. */
  function Hex(n: nat, width: nat): (h: string)
    ensures |h| == width
    ensures forall i :: 0 <= i < width ==> IsLowerHex(h[i])
  {
    if width == 0 then [] else Hex(n / 16, width - 1) + [HexDigit(n % 16)]
  }

  /** A 32-bit polynomial checksum of the text (the stand-in for the MD5 state). */
  function Checksum(s: string): nat
  {
    if s == [] then 0 else (31 * Checksum(s[..|s| - 1]) + s[|s| - 1] as int) % 0x1_0000_0000
  }

  /** Stand-in for the first eight hex digits of the MD5 digest of `s`. */
  function Md5Prefix(s: string): (h: string)
    ensures |h| == 8
    ensures forall i :: 0 <= i < 8 ==> IsLowerHex(h[i])
  {
    Hex(Checksum(s), 8)
  }
}

=== FILE: gate.dfy ===
/** The path-traversal check at the top of the retrieval route
    (`download_file_route`), which runs before the scratch directory or the tracker
    is looked at. */
module Gate {

  /** `'..' in s`: two consecutive dots somewhere in `s`. */
  function HasDotDot(s: string): (b: bool)
    ensures b <==> exists i :: 0 <= i < |s| - 1 && s[i] == '.' && s[i + 1] == '.'
  {
    if |s| < 2 then false
    else if s[0] == '.' && s[1] == '.' then true
    else
      var r := HasDotDot(s[1..]);
      assert forall i :: 1 <= i < |s| - 1 ==> s[1..][i - 1] == s[i] && s[1..][i] == s[i + 1];
      r
  }

  /** The gate admits a name that contains no `..`, no `/` and no `\`. */
  predicate Admits(name: string): (ok: bool)
    ensures ok <==> forall i :: 0 <= i < |name| ==>
      && name[i] != '/' && name[i] != '\\'
      && !(i + 1 < |name| && name[i] == '.' && name[i + 1] == '.')
  {
    !HasDotDot(name) && '/' !in name && '\\' !in name
  }

  /** Names the gate refuses. */
  lemma RefusedNames()
    ensures !Admits("../../etc/passwd")
    ensures !Admits("..")
    ensures !Admits("a/b")
    ensures !Admits("a\\b")
    ensures !Admits("a..b")
  {
    assert "../../etc/passwd"[0] == '.' && "../../etc/passwd"[1] == '.';
    assert ".."[0] == '.' && ".."[1] == '.';
    assert "a/b"[1] == '/';
    assert "a\\b"[1] == '\\';
    assert "a..b"[1] == '.' && "a..b"[2] == '.';
  }
}

=== FILE: naming.dfy ===
/** Deriving the stored filename of a download: the raw candidate taken from the
    response or the URL, its sanitation, and the fallback for an empty name
    (app.py, `sanitize_filename` and the first half of `download_file`). */
module Naming {
  import opened Wrappers
  import opened Text
  import opened Digest

  /** Names longer than this are collapsed. */
  const MAX_NAME_LENGTH: nat := 100
  /** Characters of the sanitized name kept in front of the digest. */
  const PREFIX_LENGTH: nat := 50
  /** Characters of the sanitized name kept after the digest. */
  const TAIL_LENGTH: nat := 10
  /** Length of a collapsed name: prefix, `_`, digest, `_`, tail. */
  const COLLAPSED_LENGTH: nat := PREFIX_LENGTH + 1 + 8 + 1 + TAIL_LENGTH

  /** Characters the pattern `[^\w\.-]` leaves alone. */
  predicate IsSafeChar(c: char) {
    IsWordChar(c) || c == '.' || c == '-'
  }

  predicate IsSafeName(s: string) {
    forall i :: 0 <= i < |s| ==> IsSafeChar(s[i])
  }

  /** `re.sub(r'[^\w\.-]', '_', s)`: every unsafe character becomes one `_`. */
  function ReplaceUnsafe(s: string): (r: string)
    ensures |r| == |s|
    ensures forall i :: 0 <= i < |s| ==> r[i] == (if IsSafeChar(s[i]) then s[i] else '_')
  {
    if s == [] then []
    else ReplaceUnsafe(s[..|s| - 1]) + [if IsSafeChar(s[|s| - 1]) then s[|s| - 1] else '_']
  }

  /** `sanitize_filename`: unsafe characters replaced, and a name longer than 100
      characters collapsed to its first 50 characters, `_`, the digest of the
      sanitized name, `_` and its last 10 characters. */
  function Sanitize(filename: string): (r: string)
    ensures IsSafeName(r) && |r| <= MAX_NAME_LENGTH
    ensures |filename| <= MAX_NAME_LENGTH ==> r == ReplaceUnsafe(filename)
    ensures |filename| <= MAX_NAME_LENGTH ==> |r| == |filename|
    ensures |filename| > MAX_NAME_LENGTH ==> |r| == COLLAPSED_LENGTH
    ensures forall i :: 0 <= i < |r| && i < PREFIX_LENGTH ==> r[i] == ReplaceUnsafe(filename)[i]
  {
    var safe := ReplaceUnsafe(filename);
    if |safe| > MAX_NAME_LENGTH then
      var prefix := safe[..PREFIX_LENGTH];
      var suffix := if |safe| > TAIL_LENGTH then safe[|safe| - TAIL_LENGTH..] else safe;
      var r := prefix + "_" + Md5Prefix(safe) + "_" + suffix;
      assert forall i :: PREFIX_LENGTH < i < PREFIX_LENGTH + 9 ==> r[i] == Md5Prefix(safe)[i - PREFIX_LENGTH - 1];
      r
    else
      safe
  }

  /** The layout of a collapsed name; the digest is taken over the sanitized name,
      not over the raw one. */
  lemma CollapsedLayout(filename: string)
    requires |filename| > MAX_NAME_LENGTH
    ensures var safe := ReplaceUnsafe(filename);
      var r := Sanitize(filename);
      && r[..PREFIX_LENGTH] == safe[..PREFIX_LENGTH]
      && r[PREFIX_LENGTH] == '_'
      && r[PREFIX_LENGTH + 1..PREFIX_LENGTH + 9] == Md5Prefix(safe)
      && r[PREFIX_LENGTH + 9] == '_'
      && r[PREFIX_LENGTH + 10..] == safe[|safe| - TAIL_LENGTH..]
  {
  }

  /** Replacement changes nothing in a name that is already safe. */
  lemma {:induction false} ReplaceUnsafeOfSafe(s: string)
    requires IsSafeName(s)
    ensures ReplaceUnsafe(s) == s
  {
    var r := ReplaceUnsafe(s);
    assert forall i :: 0 <= i < |s| ==> r[i] == s[i];
  }

  /** Sanitation leaves a name unchanged exactly when it is safe and at most 100
      characters long. */
  lemma SanitizeFixedPoint(s: string)
    ensures Sanitize(s) == s <==> IsSafeName(s) && |s| <= MAX_NAME_LENGTH
  {
    if IsSafeName(s) && |s| <= MAX_NAME_LENGTH {
      ReplaceUnsafeOfSafe(s);
    }
  }

  /** Sanitizing a sanitized name changes nothing. */
  lemma SanitizeIdempotent(s: string)
    ensures Sanitize(Sanitize(s)) == Sanitize(s)
  {
    SanitizeFixedPoint(Sanitize(s));
  }

  /** Only the empty name sanitizes to the empty name. */
  lemma SanitizeEmpty(s: string)
    ensures Sanitize(s) == [] <==> s == []
  {
  }

  /** `url.split('/')[-1].split('?')[0]`: the last path segment of the URL with its
      query string cut off. It starts right after the last `/` (or at the start when
      there is none) and stops at the first `?` after that (or at the end). */
  function UrlCandidate(url: string): (c: string)
    ensures '/' !in c && '?' !in c
    ensures exists start ::
              && 0 <= start <= |url| - |c|
              && (start == 0 || url[start - 1] == '/')
              && '/' !in url[start..]
              && url[start..start + |c|] == c
              && (start + |c| == |url| || url[start + |c|] == '?')
  {
    var segments := Split(url, '/');
    var last := segments[|segments| - 1];
    LastPiece(url, '/');
    FirstPiece(last, '?');
    PiecePlacement(url, last, Split(last, '?')[0]);
    Split(last, '?')[0]
  }

  /** Where a prefix `c` of the suffix `last` of `url` sits in `url`. */
  lemma PiecePlacement(url: string, last: string, c: string)
    requires |last| <= |url| && last == url[|url| - |last|..] && '/' !in last
    requires |last| < |url| ==> url[|url| - |last| - 1] == '/'
    requires |c| <= |last| && c == last[..|c|]
    requires |c| < |last| ==> last[|c|] == '?'
    ensures exists start ::
              && 0 <= start <= |url| - |c|
              && (start == 0 || url[start - 1] == '/')
              && '/' !in url[start..]
              && url[start..start + |c|] == c
              && (start + |c| == |url| || url[start + |c|] == '?')
  {
    var start := |url| - |last|;
    assert url[start..start + |c|] == last[..|c|];
    assert start + |c| == |url| || url[start + |c|] == last[|c|];
  }

  /** The raw name before sanitation: the `Content-Disposition` filename when the
      response has one, otherwise the URL candidate. */
  function RawName(url: string, disposition: Option<string>): (raw: string)
    ensures disposition.Some? ==> raw == disposition.value
    ensures disposition.None? ==> '/' !in raw && '?' !in raw
  {
    match disposition
    case Some(f) => f
    case None => UrlCandidate(url)
  }

  /** The filename `download_file` settles on before collisions are resolved. */
  function FileNameFor(url: string, disposition: Option<string>): (name: string)
    ensures name != [] && IsSafeName(name) && |name| <= MAX_NAME_LENGTH
    ensures RawName(url, disposition) != [] ==> name == Sanitize(RawName(url, disposition))
    ensures RawName(url, disposition) == [] ==> name == "download_" + Md5Prefix(url)
  {
    var name := Sanitize(RawName(url, disposition));
    SanitizeEmpty(RawName(url, disposition));
    if name == [] then
      var fallback := "download_" + Md5Prefix(url);
      assert forall i :: 9 <= i < |fallback| ==> fallback[i] == Md5Prefix(url)[i - 9];
      fallback
    else
      name
  }

  /** The candidate of a plain path is its last segment. */
  lemma PlainPathCandidate()
    ensures UrlCandidate("h/a.gz") == "a.gz"
  {
    SplitWithout("a.gz", '/');
    SplitWithout("a.gz", '?');
    assert "/a.gz"[1..] == "a.gz";
    assert "h/a.gz"[1..] == "/a.gz";
    assert Split("/a.gz", '/') == ["", "a.gz"];
    assert ['h'] + "" == "h";
    assert Split("h/a.gz", '/') == ["h", "a.gz"];
  }

  /** The query string is cut off the candidate. */
  lemma QueryCutCandidate()
    ensures UrlCandidate("h/f?t") == "f"
  {
    SplitWithout("f?t", '/');
    SplitWithout("t", '?');
    assert "/f?t"[1..] == "f?t";
    assert "h/f?t"[1..] == "/f?t";
    assert ['h'] + "" == "h";
    assert Split("h/f?t", '/') == ["h", "f?t"];
    assert "?t"[1..] == "t";
    assert "f?t"[1..] == "?t";
    assert Split("?t", '?') == ["", "t"];
    assert ['f'] + "" == "f";
    assert Split("f?t", '?') == ["f", "t"];
  }

  /** A URL ending in `/` has an empty candidate. */
  lemma TrailingSlashCandidate()
    ensures UrlCandidate("h/") == ""
  {
    assert "h/"[1..] == "/";
    assert "/"[1..] == "";
  }

  /** A string without the separator splits into itself. */
  lemma {:induction false} SplitWithout(s: string, sep: char)
    requires sep !in s
    ensures Split(s, sep) == [s]
    decreases |s|
  {
    if s != [] {
      SplitWithout(s[1..], sep);
      assert [s[0]] + s[1..] == s;
    }
  }
}

=== FILE: streaming.dfy ===
/** Writing the response body to the scratch file with a size ceiling: the chunk loop
    of `download_file`. The body is the sequence of chunks the response yields. */
module Streaming {

  newtype byte = x: int | 0 <= x < 256

  /** The largest file the service stores: 500 MiB. */
  const MAX_FILE_SIZE: nat := 500 * 1024 * 1024

  /** The bytes of a sequence of chunks, in order. */
  function Concat(chunks: seq<seq<byte>>): seq<byte>
  {
    if chunks == [] then [] else chunks[0] + Concat(chunks[1..])
  }

  /** The bytes of two runs of chunks are the bytes of each, one after the other. */
  lemma {:induction false} ConcatAppend(a: seq<seq<byte>>, b: seq<seq<byte>>)
    ensures Concat(a + b) == Concat(a) + Concat(b)
    decreases |a|
  {
    if a == [] {
      assert a + b == b;
    } else {
      assert (a + b)[1..] == a[1..] + b;
      ConcatAppend(a[1..], b);
    }
  }

  /** Taking one more chunk appends that chunk's bytes. */
  lemma ConcatStep(chunks: seq<seq<byte>>, i: nat)
    requires i < |chunks|
    ensures Concat(chunks[..i + 1]) == Concat(chunks[..i]) + chunks[i]
  {
    assert chunks[..i + 1] == chunks[..i] + [chunks[i]];
    ConcatAppend(chunks[..i], [chunks[i]]);
  }

  /** The bytes of a prefix of the chunks are a prefix of the body. */
  lemma ConcatPrefix(chunks: seq<seq<byte>>, i: nat)
    requires i <= |chunks|
    ensures Concat(chunks[..i]) <= Concat(chunks)
  {
    assert chunks == chunks[..i] + chunks[i..];
    ConcatAppend(chunks[..i], chunks[i..]);
  }

  /** The chunk loop. Before writing a chunk it checks that the running size plus the
      chunk stays within `MAX_FILE_SIZE`, and stops with `exceeded` at the first chunk
      that does not; what was written up to then stays in the file. `written` is the
      file's content and `count` the number of chunks written. */
  method StreamToFile(chunks: seq<seq<byte>>) returns (written: seq<byte>, exceeded: bool, ghost count: nat)
    ensures count <= |chunks| && written == Concat(chunks[..count])
    ensures |written| <= MAX_FILE_SIZE
    ensures written <= Concat(chunks)
    ensures exceeded <==> |Concat(chunks)| > MAX_FILE_SIZE
    ensures exceeded ==> count < |chunks| && |written| + |chunks[count]| > MAX_FILE_SIZE
    ensures !exceeded ==> written == Concat(chunks)
  {
    var fileSize := 0;
    written := [];
    exceeded := false;
    var i := 0;
    while i < |chunks|
      invariant 0 <= i <= |chunks|
      invariant written == Concat(chunks[..i])
      invariant fileSize == |written| <= MAX_FILE_SIZE
    {
      if fileSize + |chunks[i]| > MAX_FILE_SIZE {
        exceeded := true;
        break;
      }
      ConcatStep(chunks, i);
      written := written + chunks[i];
      fileSize := fileSize + |chunks[i]|;
      i := i + 1;
    }
    count := i;
    ConcatPrefix(chunks, count);
    if exceeded {
      ConcatStep(chunks, count);
      ConcatPrefix(chunks, count + 1);
    } else {
      assert chunks[..i] == chunks;
    }
  }
}

=== FILE: text.dfy ===
/** Character classes and string operations with the meaning Python gives them. */
module Text {

  predicate IsAsciiLetter(c: char) {
    'a' <= c <= 'z' || 'A' <= c <= 'Z'
  }

  predicate IsDigit(c: char) {
    '0' <= c <= '9'
  }

  /** The regular-expression class `\w`, restricted to ASCII letters, digits and `_`. */
  predicate IsWordChar(c: char) {
    IsAsciiLetter(c) || IsDigit(c) || c == '_'
  }

  /** What `\s` matches in a `str` pattern (the characters for which `str.isspace` holds). */
  predicate IsSpace(c: char) {
    || '\t' <= c <= '\r'
    || '\U{1C}' <= c <= '\U{1F}'
    || c == ' '
    || c == '\U{85}'
    || c == '\U{A0}'
    || c == '\U{1680}'
    || '\U{2000}' <= c <= '\U{200A}'
    || c == '\U{2028}'
    || c == '\U{2029}'
    || c == '\U{202F}'
    || c == '\U{205F}'
    || c == '\U{3000}'
  }

  function DigitChar(d: nat): (c: char)
    requires d < 10
    ensures IsDigit(c)
  {
    ('0' as int + d) as char
  }

  function DigitValue(c: char): nat
    requires IsDigit(c)
  {
    c as int - '0' as int
  }

  /** `str(n)` for a natural number: its decimal digits, most significant first,
      with no leading zero. */
  function Decimal(n: nat): (s: string)
    ensures |s| >= 1
    ensures forall i :: 0 <= i < |s| ==> IsDigit(s[i])
    ensures |s| == 1 || s[0] != '0'
  {
    if n < 10 then [DigitChar(n)] else Decimal(n / 10) + [DigitChar(n % 10)]
  }

  /** `int(s)` for a string of decimal digits. */
  function DecimalValue(s: string): nat
    requires forall i :: 0 <= i < |s| ==> IsDigit(s[i])
  {
    if s == [] then 0 else 10 * DecimalValue(s[..|s| - 1]) + DigitValue(s[|s| - 1])
  }

  /** Reading back the digits of `str(n)` gives `n`. */
  lemma {:induction false} DecimalRoundTrip(n: nat)
    ensures DecimalValue(Decimal(n)) == n
  {
    if n >= 10 {
      var s := Decimal(n);
      assert s[..|s| - 1] == Decimal(n / 10);
      DecimalRoundTrip(n / 10);
    }
  }

  /** `s.split(sep)`: the pieces of `s` between occurrences of `sep`, always at least one. */
  function Split(s: string, sep: char): (parts: seq<string>)
    ensures |parts| >= 1
    ensures forall i :: 0 <= i < |parts| ==> sep !in parts[i]
    decreases |s|
  {
    if s == [] then [[]]
    else
      var rest := Split(s[1..], sep);
      if s[0] == sep then [[]] + rest
      else [[s[0]] + rest[0]] + rest[1..]
  }

  /** `sep.join(parts)`. */
  function Join(parts: seq<string>, sep: char): string
    requires |parts| >= 1
    decreases |parts|
  {
    if |parts| == 1 then parts[0] else parts[0] + [sep] + Join(parts[1..], sep)
  }

  /** Splitting and joining again at the same separator gives back the string. */
  lemma {:induction false} JoinSplit(s: string, sep: char)
    ensures Join(Split(s, sep), sep) == s
    decreases |s|
  {
    if s != [] {
      var rest := Split(s[1..], sep);
      JoinSplit(s[1..], sep);
      if s[0] == sep {
        assert [s[0]] + s[1..] == s;
      } else {
        var parts := Split(s, sep);
        assert parts[1..] == rest[1..];
        if |rest| == 1 {
          assert [s[0]] + s[1..] == s;
        } else {
          assert Join(rest, sep) == rest[0] + [sep] + Join(rest[1..], sep);
          assert s == [s[0]] + s[1..];
        }
      }
    }
  }

  /** `s.split(sep)[0]` is the longest prefix of `s` without `sep`: it runs up to the
      first `sep` or to the end of `s`. */
  lemma {:induction false} FirstPiece(s: string, sep: char)
    ensures var f := Split(s, sep)[0];
      && |f| <= |s| && f == s[..|f|]
      && (|f| < |s| ==> s[|f|] == sep)
    decreases |s|
  {
    if s != [] {
      FirstPiece(s[1..], sep);
    }
  }

  /** `s.split(sep)[-1]` is the longest suffix of `s` without `sep`: it starts just
      after the last `sep`, and is all of `s` exactly when there is no `sep`. */
  lemma {:induction false} LastPiece(s: string, sep: char)
    ensures var parts := Split(s, sep);
      var l := parts[|parts| - 1];
      && |l| <= |s| && l == s[|s| - |l|..]
      && (|parts| == 1 <==> |l| == |s|)
      && (|l| < |s| ==> s[|s| - |l| - 1] == sep)
    decreases |s|
  {
    if s != [] {
      LastPiece(s[1..], sep);
      var rest := Split(s[1..], sep);
      var parts := Split(s, sep);
      if s[0] != sep && |rest| == 1 {
        assert parts == [[s[0]] + rest[0]];
        assert [s[0]] + s[1..] == s;
      }
    }
  }
}

=== FILE: urlcheck.dfy ===
/** `validate_url`: the service accepts a URL when
    `re.match(r'^https?://[^\s/$.?#].[^\s]*$', url, re.IGNORECASE)` finds a match. */
module UrlCheck {
  import opened Text

  /** `c` matches the pattern character `p` under `re.IGNORECASE`: ASCII case folding,
      and U+017F LATIN SMALL LETTER LONG S also matches `s`. */
  predicate MatchesIgnoringCase(c: char, p: char) {
    || c == p
    || ('a' <= p <= 'z' && c as int == p as int - 32)
    || (p == 's' && c == '\U{17F}')
  }

  predicate HasPrefixIgnoringCase(s: string, p: string) {
    |s| >= |p| && forall i :: 0 <= i < |p| ==> MatchesIgnoringCase(s[i], p[i])
  }

  /** The class `[^\s/$.?#]` of the first character after the scheme. */
  predicate MayStartHost(c: char) {
    !IsSpace(c) && c !in "/$.?#"
  }

  /** `[^\s/$.?#].[^\s]*`: a host-start character, then any character but a newline
      (the pattern's `.`), then no whitespace up to the end. */
  predicate MatchesAfterScheme(t: string) {
    && |t| >= 2
    && MayStartHost(t[0])
    && t[1] != '\n'
    && forall i :: 2 <= i < |t| ==> !IsSpace(t[i])
  }

  /** The whole pattern, with `$` at the very end of `u`. */
  predicate MatchesWhole(u: string) {
    || (HasPrefixIgnoringCase(u, "http://") && MatchesAfterScheme(u[7..]))
    || (HasPrefixIgnoringCase(u, "https://") && MatchesAfterScheme(u[8..]))
  }

  /** Length of the scheme and `://` that the pattern consumed. */
  function SchemeLength(u: string): nat {
    if HasPrefixIgnoringCase(u, "https://") then 8 else 7
  }

  /** `validate_url`. Python's `$` also matches just before a newline that ends the
      string, so a URL followed by one newline is accepted too. */
  function ValidUrl(url: string): (ok: bool)
    ensures ok ==> HasPrefixIgnoringCase(url, "http://") || HasPrefixIgnoringCase(url, "https://")
    ensures ok ==> |url| >= SchemeLength(url) + 2
  {
    || MatchesWhole(url)
    || (|url| > 0 && url[|url| - 1] == '\n' && MatchesWhole(url[..|url| - 1]))
  }

  /** In an accepted URL, whitespace can only stand in two places: right after the
      first host character (where the pattern has `.`) and as the final newline. */
  lemma ValidUrlWhitespace(url: string, i: nat)
    requires ValidUrl(url) && i < |url| && IsSpace(url[i])
    ensures i == SchemeLength(url) + 1 || (i == |url| - 1 && url[i] == '\n')
  {
    if MatchesWhole(url) {
      MatchWhitespace(url, i);
    } else if i < |url| - 1 {
      var v := url[..|url| - 1];
      assert v[i] == url[i];
      assert HasPrefixIgnoringCase(url, "https://") <==> HasPrefixIgnoringCase(v, "https://");
      MatchWhitespace(v, i);
    }
  }

  /** The whitespace case of a match without the final newline. */
  lemma MatchWhitespace(u: string, i: nat)
    requires MatchesWhole(u) && i < |u| && IsSpace(u[i])
    ensures i == SchemeLength(u) + 1
  {
    var n := SchemeLength(u);
    if i >= n {
      assert u[n..][i - n] == u[i];
    }
  }

  /** A plain download URL is accepted. */
  lemma AcceptedExample()
    ensures ValidUrl("https://example.com/a.gz")
  {
    assert MatchesWhole("https://example.com/a.gz") by {
      assert "https://example.com/a.gz"[8..] == "example.com/a.gz";
    }
  }

  /** The scheme is matched regardless of case. */
  lemma SchemeIgnoresCase()
    ensures ValidUrl("HTTP://ab")
    ensures ValidUrl("http\U{17F}://ab")
  {
    assert MatchesWhole("HTTP://ab") by {
      assert "HTTP://ab"[7..] == "ab";
    }
    assert MatchesWhole("http\U{17F}://ab") by {
      assert "http\U{17F}://ab"[8..] == "ab";
    }
  }

  /** The pattern is laxer than "no whitespace": the `.` after the first host
      character accepts a space, and `$` accepts a final newline. */
  lemma LaxAcceptance()
    ensures ValidUrl("http://a b")
    ensures ValidUrl("http://ab\n")
  {
    assert MatchesWhole("http://a b") by {
      assert "http://a b"[7..] == "a b";
    }
    assert MatchesWhole("http://ab") by {
      assert "http://ab"[7..] == "ab";
    }
    assert "http://ab\n"[..9] == "http://ab";
  }

  /** URLs the pattern refuses: another scheme, a host starting with `/` or `.`, and a
      host of a single character. */
  lemma RefusedExamples()
    ensures !ValidUrl("ftp://ab")
    ensures !ValidUrl("http:///x")
    ensures !ValidUrl("http://.x")
    ensures !ValidUrl("http://a")
  {
    assert "ftp://ab"[0] == 'f';
    assert "http:///x"[4] == ':' && "http:///x"[7..][0] == '/';
    assert "http://.x"[4] == ':' && "http://.x"[7..][0] == '.';
    assert "http://a"[4] == ':' && |"http://a"[7..]| == 1;
  }
}

=== FILE: wrappers.dfy ===
/** Optional values and results with an error branch, used in place of the
    exceptions and `None` values of the download service. */
module Wrappers {

  datatype Option<+T> = None | Some(value: T)

  datatype Result<+T, +E> = Ok(value: T) | Err(error: E)
}
